=== FILE: README.md ===
# vylfs engine in Dafny

This project models the in-memory filesystem engine of vylfs, a FUSE
filesystem written in Rust (`VylFs` in `src/filesystem/mod.rs`). The engine
is one value:

- an inode counter;
- an attribute table from inode number to attribute record;
- a directory namespace from `(parent, name)` to child inode number;
- a map from inode number to the bytes of a file.

Each kernel callback is one transition over that value. The callbacks are
`lookup`, `getattr`, `readdir`, `create`, `setattr`, `unlink`, `read`,
`write`, `mkdir` and `rmdir`. Each one returns either a reply payload or an
error number (EINVAL, EEXIST, ENOENT, ENOTDIR, ENOTEMPTY).

Every callback is a pure function `FsState × arguments → Step`. A `Step`
holds the next state and a `Result`. The reply payload is one of these:

- an attribute record;
- the listed items;
- the bytes read;
- the written count;
- nothing, for `unlink` and `rmdir`.

`Dispatcher.Dispatch` routes the ten request kinds to those functions and
wraps each result as the reply kind the kernel bridge expects.

Files:

- `fstypes.dfy`: inode numbers, names as bytes, attribute records, the state, error numbers.
- `utf8.dfy`: the check that a name converts to text. It is a UTF-8 well-formedness test; a name that fails it gets EINVAL.
- `buffer.dfy`: reading a clamped window, writing with zero-filled growth, and `div_ceil`.
- `buffer.dfy` also holds the block count that write stores.
- `namespace.dfy`: the ".." scan over the entry map, the scan for a directory's children, and the listing built from them.
- `dirlist.dfy`: how a listing is paged into readdir's reply buffer. Cookies are `i + 1`. An item that does not fit stops the reply.
- `engine.dfy`: the state invariant `Wf`, `new`, `add_entry`, `remove_entry` and the ten callbacks.
- `properties.dfy`: lemmas relating the callbacks to one another and to the invariant.
- `dispatcher.dfy`: the closed set of requests, the dispatch function, invariant preservation for every request, and the worked session (mkdir, create, write, read, rmdir, unlink, rmdir).

## Behaviour as written

The model follows the code where it differs from what a conventional
filesystem would lead one to expect:

- `unlink` removes the entry and the child's record, whatever the child's
  kind and link count. It does not remove the content buffer.
  - Read and write on the unlinked id still succeed (`Properties.UnlinkKeepsContent`).
  - Unlinking a directory that has entries leaves those entries under a parent
    that has no record (`Properties.UnlinkOrphansEntries`).
- `setattr` with a size does not resize the buffer, so `size` and the buffer
  length can disagree afterwards (`Properties.SetAttrSizeLeavesBuffer`).
- `setattr` computes `blocks` as the size divided by `blksize` (4096),
  rounded up. Write uses a different rule: 512-byte units with a floor of 8.
  For every nonzero size the setattr count is smaller
  (`Properties.SetAttrBlocksBelowWriteBlocks`).
- `setattr` stores `mode as u16`, the low sixteen bits. It does not mask
  with 0o7777 as `create` and `mkdir` do.
- `create` and `mkdir` do not check that the parent exists or is a directory.
  The parent may even be the id that the call is about to allocate.
- `create` starts a file with `blocks = 0`.
- `lookup` replies EINVAL for a name that is not UTF-8.
- An entry whose child has no record also gives ENOENT. `Wf` shows that this
  cannot happen from a reachable state.
- `write` replies `data.len() as u32`, the byte count cut to 32 bits.

## Model

| member | source | states |
|---|---|---|
| Utf8.IsValid | src/filesystem/mod.rs:90-96 | the text conversion of a name; a name that passes starts with ASCII or a lead byte from 0xC2 to 0xF4, never a continuation byte |
| Utf8.AsciiIsValid | src/filesystem/mod.rs:90-96 | every plain-ASCII name passes the text conversion, so it does not draw EINVAL |
| Utf8.StrayByteIsInvalid | src/filesystem/mod.rs:181-187 | a name containing 0xC0, 0xC1 or a byte from 0xF5 up fails the conversion, so it draws EINVAL |
| Buffer.ReadAt | src/filesystem/mod.rs:323-331 | read returns `min(size, len - offset)` bytes, each equal to the content at `offset + i`; past the end it returns nothing |
| Buffer.WriteAt | src/filesystem/mod.rs:349-357 | new length is `max(len, offset + n)`; the written window holds `data`; the gap between the old end and `offset` is zero; every other old byte is unchanged |
| Buffer.ReadAfterWrite | src/filesystem/mod.rs:323-357 | reading `|data|` bytes at the offset just written returns `data` |
| Buffer.GapReadsZero | src/filesystem/mod.rs:353-357 | the gap a write past the end opens reads back as zero bytes |
| Buffer.WriteTwice | src/filesystem/mod.rs:349-357 | repeating a write of the same bytes at the same offset changes nothing more |
| Buffer.DivCeil | src/filesystem/mod.rs:256 | `div_ceil` is the least `q` with `n <= q * d` |
| Buffer.WriteBlocks | src/filesystem/mod.rs:360-365 | write's block count is 0 exactly for size 0; otherwise it is the least count at or above 8 that holds `size` in 512-byte units |
| Namespace.FindParent | src/filesystem/mod.rs:138-143 | the scan finds nothing iff no entry from that position on has the child; a hit is the parent of the first such entry in iteration order |
| Namespace.ParentOfIsEntryParent | src/filesystem/mod.rs:135-144 | when no child is named twice, ".." is the parent of the entry naming the directory, whatever the iteration order; with no such entry it is the root |
| Namespace.ChildrenFrom | src/filesystem/mod.rs:151-157 | each listed child is an entry of the directory whose child has a record; it carries that record's id and kind |
| Namespace.ChildFromPosition | src/filesystem/mod.rs:151-157 | each listed child comes from an entry of the directory at or after the scan position |
| Namespace.ChildListedFrom | src/filesystem/mod.rs:151-157 | each entry of the directory at or after the scan position, whose child has a record, is listed |
| Namespace.ParentOf | src/filesystem/mod.rs:135-144 | ".." of the root is the root; for another id it is the parent of the first entry, in iteration order, naming that id, or the root when no entry names it |
| Namespace.Listing | src/filesystem/mod.rs:146-157 | the listing is "." with the directory's id, then ".." with its parent, then the children: a name is listed iff it is an entry of the directory whose child has a record, no name twice, each with that record's id and kind |
| Namespace.ChildrenExact | src/filesystem/mod.rs:151-157 | a name is listed iff it is an entry of the directory whose child has a record; it is listed once, with the child's id |
| Namespace.ChildrenDistinct | src/filesystem/mod.rs:151-157 | no name is listed twice when the iteration visits each key once |
| DirList.DirentSize | src/filesystem/mod.rs:162 | a dirent takes the 24-byte header plus the name, rounded up to a multiple of 8 |
| DirList.EmitFrom | src/filesystem/mod.rs:159-166 | the items emitted from `offset` are consecutive listing items with cookie `i + 1`; together they fit the buffer; the next item, if any, does not fit |
| DirList.PaginateCovers | src/filesystem/mod.rs:159-168 | re-issuing readdir at each last cookie, with a buffer any single item fits, returns every listing item once, in order |
| Engine.New | src/filesystem/mod.rs:36-65 | the first state holds only the root directory (0o755, nlink 2, size 4096, blocks 8, owned by the effective uid and gid, all four times the clock, rdev and flags 0); the counter is root + 1; the invariant holds |
| Engine.AddEntry | src/filesystem/mod.rs:67-71 | stores the record under its own id and names it in the parent; no other record or entry changes |
| Engine.RemoveEntry | src/filesystem/mod.rs:73-76 | drops exactly the given record and entry; nothing else changes |
| Engine.Lookup | src/filesystem/mod.rs:89-108 | EINVAL for a non-UTF-8 name; otherwise the child's record if the entry and the record exist, else ENOENT; never changes the state |
| Engine.GetAttr | src/filesystem/mod.rs:110-115 | replies the record iff the id is live, else ENOENT; never changes the state |
| Engine.ReadDir | src/filesystem/mod.rs:117-169 | ENOENT for a missing id, ENOTDIR for a non-directory, else the longest run of the directory's listing from `offset` that fits the buffer, with cookies counting up from `offset + 1`; never changes the state |
| Engine.Read | src/filesystem/mod.rs:312-335 | ENOENT exactly when the id has no buffer; otherwise exactly `min(size, len - offset)` bytes of the buffer from `offset`, and none past its end; never changes the state |
| Engine.Create | src/filesystem/mod.rs:171-221 | EINVAL, then EEXIST, each with no change; otherwise the counter's id becomes a regular file (size 0, blocks 0, nlink 1, perm `mode & 0o7777`, owned by the effective uid and gid, all four times the clock, rdev and flags 0) with one entry and an empty buffer, and the counter moves up by one |
| Engine.MkDir | src/filesystem/mod.rs:375-422 | EINVAL, then EEXIST, each with no change; otherwise the counter's id becomes a directory (size 4096, blocks 8, nlink 2, perm `mode & 0o7777`, owned by the effective uid and gid, all four times the clock, rdev and flags 0) with one entry and no buffer |
| Engine.ApplySetAttr | src/filesystem/mod.rs:241-285 | only given fields change; perm is `mode as u16`; a given size sets `blocks` to the least count of `blksize` units holding it; "now" times take the clock |
| Engine.SetAttr | src/filesystem/mod.rs:223-289 | ENOENT with no change for a missing id; otherwise only that record changes, and neither buffers, entries nor the counter do |
| Engine.Write | src/filesystem/mod.rs:337-373 | ENOENT with no change without a buffer; otherwise the buffer content rules of `WriteAt` hold and the reply is the count cut to 32 bits |
| Engine.Unlink | src/filesystem/mod.rs:291-310 | EINVAL, then ENOENT for a missing entry, each with no change; otherwise the entry and its child's record go, and the buffers and counter stay |
| Engine.RmDir | src/filesystem/mod.rs:424-456 | the errors come in the order EINVAL, ENOENT (entry), ENOENT (record), ENOTDIR, ENOTEMPTY, and any error leaves the state unchanged; success removes exactly that entry and that record |
| Properties.CreatePreservesWf | src/filesystem/mod.rs:189-218 | create keeps the invariant: ids below the counter, live ids are the root plus entry children, no child named twice, buffers only for regular files |
| Properties.MkDirPreservesWf | src/filesystem/mod.rs:392-420 | mkdir keeps the invariant |
| Properties.UnlinkPreservesWf | src/filesystem/mod.rs:300-309 | unlink keeps the invariant, because no child is named by two entries |
| Properties.RmDirPreservesWf | src/filesystem/mod.rs:433-455 | rmdir keeps the invariant |
| Properties.SetAttrPreservesWf | src/filesystem/mod.rs:241-288 | setattr keeps the invariant |
| Properties.WritePreservesWf | src/filesystem/mod.rs:349-372 | write keeps the invariant |
| Properties.CreateAllocatesFresh | src/filesystem/mod.rs:194-195 | create's id is not the root, is above every live id, is used by no entry or buffer, and adds exactly one record |
| Properties.MkDirAllocatesFresh | src/filesystem/mod.rs:397-398 | the same for mkdir |
| Properties.NameTakenAfterCreate | src/filesystem/mod.rs:189-192 | after create makes `(parent, name)`, a second create or mkdir of it replies EEXIST and changes nothing |
| Properties.NameTakenAfterMkDir | src/filesystem/mod.rs:392-395 | the same after mkdir |
| Properties.UnlinkFreesName | src/filesystem/mod.rs:300-304 | after unlink removes a name, create can make it again |
| Properties.CreateThenLookup | src/filesystem/mod.rs:98-101 | lookup and getattr after create return the record create replied |
| Properties.WriteThenRead | src/filesystem/mod.rs:323-357 | on a file with a buffer, reading back at the written offset and length returns the written bytes |
| Properties.SparseWriteReadsZero | src/filesystem/mod.rs:353-357 | a write past the end leaves a gap that reads back as zeros |
| Properties.WriteKeepsSizeInSync | src/filesystem/mod.rs:359-367 | after write, a live file's size equals its buffer length `max(len, offset + n)`, and its blocks follow write's rule |
| Properties.UnlinkKeepsContent | src/filesystem/mod.rs:300-304 | after unlink the child's record is gone, yet read returns its old bytes and write on it succeeds |
| Properties.UnlinkOrphansEntries | src/filesystem/mod.rs:300-304 | unlinking a directory with entries leaves those entries under a parent with no record, where rmdir of the same name would have been refused |
| Properties.SetAttrSizeLeavesBuffer | src/filesystem/mod.rs:254-257 | a setattr size different from the buffer length leaves the buffer alone, so size and buffer length disagree |
| Properties.SetAttrBlocksBelowWriteBlocks | src/filesystem/mod.rs:254-257 | for any nonzero size, setattr stores fewer blocks than write would for that size |
| Properties.SetAttrIdempotent | src/filesystem/mod.rs:241-283 | applying the same setattr twice, with no "now" time, equals applying it once |
| Properties.SetAttrNothingGiven | src/filesystem/mod.rs:241-283 | a setattr with no field given leaves the record unchanged |
| Properties.ListingFits | src/filesystem/mod.rs:146-157 | if the buffer holds ".." and every child name of the directory, it holds every listing item |
| Properties.PagesFollowListing | src/filesystem/mod.rs:146-166 | when every item fits, paging from offset 0 yields every listing item in order, item `i` with cookie `i + 1` |
| Properties.ReadDirListsEverything | src/filesystem/mod.rs:117-168 | readdir's page is the listing from the offset; paging from 0 yields "." and "..", then each child exactly once with its own id, and nothing else |
| Properties.DotDotIsParent | src/filesystem/mod.rs:135-144 | in a reachable state ".." of a directory named by an entry is that entry's parent |
| Dispatcher.Dispatch | src/filesystem/mod.rs:79-457 | each request gets its own reply kind or an error, sent as its Linux number; errors and queries leave the state; every request fails exactly when its callback refuses it (EINVAL for a non-UTF-8 name; lookup without a live child; create and mkdir on a taken name; unlink without the entry; rmdir unless the child is a live empty directory; getattr and setattr on a dead id; read and write without a buffer; readdir off a live directory); replies carry the looked-up record, the new record with the counter's id and kind, the setattr result, the bytes read, the count cut to 32 bits, or the listing page |
| Dispatcher.DispatchPreservesWf | src/filesystem/mod.rs:79-457 | every request keeps the invariant, an error reply leaves the state unchanged, and lookup, getattr, readdir and read never change it |
| Dispatcher.DispatchIdsNeverReused | src/filesystem/mod.rs:58-64 | the counter never decreases; only the old counter value can become live; an id below the counter that is not live never becomes live again |
| Dispatcher.SessionBuild | src/filesystem/mod.rs:375-422 | mkdir /a then create /a/b succeed, with ids 2 and 3 |
| Dispatcher.SessionRemove | src/filesystem/mod.rs:424-456 | rmdir /a is refused with ENOTEMPTY while /a/b exists; unlink /a/b succeeds; rmdir /a then succeeds |
| Dispatcher.Session | src/filesystem/mod.rs:337-373 | the session mkdir, create, write "hello", read "hello", refused rmdir, unlink, rmdir runs as described |
| Dispatcher.LookupMissing | src/filesystem/mod.rs:98-106 | looking up a name the root does not hold replies ENOENT |

## Left out

- `init`, `destroy`, the `ttl` cache lifetime, and the tracing calls. They are logging and a cache hint, and no state depends on them.
- `SystemTime::now()` is the `now` field of `Env`. Each callback calls it several times, and the model takes all those readings as one instant.
- `geteuid` and `getegid` are the `euid` and `egid` fields of `Env`.
- The `reply` objects. Only their payloads are modelled. The generation, file handle and open flags that `created` and `entry` send are always 0 and are not modelled.
- The signed-to-`usize` casts of `offset` in `readdir`, `read` and `write` are not modelled, because offsets are `nat`. A negative offset is not modelled.
- `usize` overflow of `offset + size` in `read` and of `offset + data.len()` in `write` is not modelled.
- `u64` overflow of the inode counter is not modelled. It needs 2^64 creations.
- Engine.Write: the model replies `|data| mod 2^32`. The source writes this `data.len() as u32`.
- Engine.Write: a buffer larger than `u64` cannot occur, so the `as u64` cast of the length is taken as exact.
- The iteration order of the entry hash map is unspecified. `readdir` therefore receives an enumeration of the entry keys (`IsEnumeration`), and both of its scans use it.
- Dispatcher.Dispatch needs that enumeration to match the current state. It is defined only for requests that satisfy `Admissible`.
- The reply buffer's capacity is a parameter.
- The dirent size and the rule that an item which does not fit is refused and ends the reply come from the FUSE bridge library, which is not part of this model. They are written down here as that library encodes them.
- `setattr`'s `_ctime`, `_fh` and `_bkuptime` arguments are ignored by the source, and the model drops them.
- `blksize` is a positive number. Every record is built with 4096 and nothing changes it, so the zero-divisor panic of `div_ceil` cannot happen.
- Object kinds other than directory and regular file are not modelled. The engine never builds them.
- The other source files are not part of this model:
  - `src/main.rs`: argument parsing.
  - `src/log.rs`: log-file reading.
  - `src/filesystem/directory.rs`: host path checks.
  - `src/mount.rs` and `src/filesystem/mount.rs`: daemonizing and mounting.
  - `src/filesystem/unmount.rs`: the privilege check and `umount2`.
  - `src/filesystem/inode.rs`: an unused hashing helper.
- Concurrency is not modelled. Each callback is one atomic transition.

=== FILE: buffer.dfy ===
/**
 * The file content store: byte buffers read with a clamped window and
 * written with zero-filled growth, and the block accounting that write
 * derives from a buffer's length.
 */
module Buffer {

  function Min(a: nat, b: nat): nat { if a <= b then a else b }

  function Max(a: nat, b: nat): nat { if a <= b then b else a }

  /** `n` zero bytes: what a buffer grows by before a write past its end. */
  function Zeros(n: nat): (z: seq<bv8>)
    ensures |z| == n
    ensures forall i :: 0 <= i < n ==> z[i] == 0
  {
    if n == 0 then [] else Zeros(n - 1) + [0]
  }

  /**
   * The bytes read returns: from `offset`, at most `size` of them, cut at the
   * end of `content`; nothing at all once `offset` is past the end.
   */
  function ReadAt(content: seq<bv8>, offset: nat, size: nat): (r: seq<bv8>)
    ensures offset > |content| ==> r == []
    ensures offset <= |content| ==> |r| == Min(size, |content| - offset)
    ensures forall i :: 0 <= i < |r| ==> offset + i < |content| && r[i] == content[offset + i]
  {
    var end := Min(offset + size, |content|);
    if offset > |content| then [] else content[offset..end]
  }

  /**
   * The buffer after write: grown with zeros to `offset + |data|` when shorter,
   * then `data` copied over `[offset, offset + |data|)`.
   */
  function WriteAt(buf: seq<bv8>, offset: nat, data: seq<bv8>): (r: seq<bv8>)
    ensures |r| == Max(|buf|, offset + |data|)
    ensures forall i :: 0 <= i < |data| ==> r[offset + i] == data[i]
    ensures forall i :: |buf| <= i < offset ==> r[i] == 0
    ensures forall i :: 0 <= i < |buf| && (i < offset || offset + |data| <= i) ==> r[i] == buf[i]
  {
    var end := offset + |data|;
    var grown := if |buf| < end then buf + Zeros(end - |buf|) else buf;
    assert forall i :: |buf| <= i < |grown| ==> grown[i] == 0;
    grown[..offset] + data + grown[end..]
  }

  /** Reading back the window just written returns exactly the written bytes. */
  lemma ReadAfterWrite(buf: seq<bv8>, offset: nat, data: seq<bv8>)
    ensures ReadAt(WriteAt(buf, offset, data), offset, |data|) == data
  {
    var r := ReadAt(WriteAt(buf, offset, data), offset, |data|);
    assert |r| == |data|;
    assert forall i :: 0 <= i < |r| ==> r[i] == data[i];
  }

  /** The gap a write past the end opens reads back as zeros. */
  lemma GapReadsZero(buf: seq<bv8>, offset: nat, data: seq<bv8>)
    requires |buf| < offset
    ensures ReadAt(WriteAt(buf, offset, data), |buf|, offset - |buf|) == Zeros(offset - |buf|)
  {
    var r := ReadAt(WriteAt(buf, offset, data), |buf|, offset - |buf|);
    assert |r| == offset - |buf|;
    assert forall i :: 0 <= i < |r| ==> r[i] == 0;
  }

  /** Writing the same bytes at the same offset twice changes nothing the second time. */
  lemma WriteTwice(buf: seq<bv8>, offset: nat, data: seq<bv8>)
    ensures WriteAt(WriteAt(buf, offset, data), offset, data) == WriteAt(buf, offset, data)
  {
    var once := WriteAt(buf, offset, data);
    var twice := WriteAt(once, offset, data);
    assert |twice| == |once|;
    forall i | 0 <= i < |once|
      ensures twice[i] == once[i]
    {
      if offset <= i < offset + |data| {
        assert twice[offset + (i - offset)] == data[i - offset];
      }
    }
  }

  /** Rust's `div_ceil` on unsigned integers: quotient, plus one if a remainder is left. */
  function DivCeil(n: nat, d: nat): (q: nat)
    requires d > 0
    ensures n <= q * d
    ensures q == 0 || (q - 1) * d < n
  {
    var quot := n / d;
    var rem := n % d;
    assert n == quot * d + rem;
    if rem > 0 then quot + 1 else quot
  }

  /** 512-byte units the kernel reports in `blocks`. */
  const SECTOR: nat := 512

  /** The smallest block count write reports for `size` bytes. */
  const MIN_BLOCKS: nat := 8

  /**
   * The block count write stores: none for an empty file, otherwise enough
   * 512-byte units to hold `size` bytes, but never fewer than eight.
   */
  function WriteBlocks(size: nat): (b: nat)
    ensures b == 0 <==> size == 0
    ensures size > 0 ==> MIN_BLOCKS <= b && size <= b * SECTOR
    ensures size > 0 ==> b == MIN_BLOCKS || (b - 1) * SECTOR < size
  {
    if size == 0 then 0 else Max(MIN_BLOCKS, DivCeil(size, SECTOR))
  }
}

=== FILE: dirlist.dfy ===
/**
 * Paging a directory listing into readdir's reply buffer. Each emitted item
 * carries the cookie `i + 1` of its position `i`, which the kernel sends back
 * as the offset of its next readdir call. An item is encoded as a FUSE
 * dirent record: a 24-byte header and the name, padded to a multiple of
 * eight bytes. An item that does not fit in the buffer is refused and ends
 * the reply.
 */
module DirList {
  import opened FsTypes
  import opened Namespace

  /** One item of a readdir reply. */
  datatype DirItem = DirItem(ino: Ino, cookie: nat, kind: Kind, name: Name)

  /** Bytes of the fixed part of a dirent record: inode, offset, name length, type. */
  const DIRENT_HEADER: nat := 24

  /** Bytes a dirent for `name` takes in the reply buffer. */
  function DirentSize(name: Name): (n: nat)
    ensures n % 8 == 0
    ensures DIRENT_HEADER + |name| <= n < DIRENT_HEADER + |name| + 8
  {
    (DIRENT_HEADER + |name| + 7) / 8 * 8
  }

  /** The item for position `i` of a listing. */
  function ItemAt(l: seq<Listed>, i: nat): DirItem
    requires i < |l|
  {
    DirItem(l[i].ino, i + 1, l[i].kind, l[i].name)
  }

  /** Buffer bytes taken by the `n` items at positions `i .. i + n` of a listing. */
  function Cost(l: seq<Listed>, i: nat, n: nat): nat
    requires i + n <= |l|
    decreases n
  {
    if n == 0 then 0 else DirentSize(l[i].name) + Cost(l, i + 1, n - 1)
  }

  /**
   * The items added from position `i` on into a buffer of `cap` bytes of
   * which `used` are taken: the longest run of consecutive items that fits.
   */
  function EmitFrom(l: seq<Listed>, i: nat, used: nat, cap: nat): (r: seq<DirItem>)
    ensures |r| == 0 || i + |r| <= |l|
    ensures forall m :: 0 <= m < |r| ==> i + m < |l| && r[m] == ItemAt(l, i + m)
    ensures |r| > 0 ==> used + Cost(l, i, |r|) <= cap
    ensures i + |r| < |l| ==> cap < used + Cost(l, i, |r| + 1)
    decreases |l| - i
  {
    if i >= |l| then []
    else
      var size := DirentSize(l[i].name);
      if used + size > cap then []
      else [ItemAt(l, i)] + EmitFrom(l, i + 1, used + size, cap)
  }

  /** One readdir reply: the items from position `offset` on that fit in `cap` bytes. */
  function Emit(l: seq<Listed>, offset: nat, cap: nat): seq<DirItem> {
    EmitFrom(l, offset, 0, cap)
  }

  /**
   * The kernel's walk through a listing: a readdir at `offset`, then another
   * at the cookie of the last item returned, until a reply comes back empty.
   */
  function Paginate(l: seq<Listed>, offset: nat, cap: nat): seq<DirItem>
    decreases |l| - offset
  {
    var batch := Emit(l, offset, cap);
    if |batch| == 0 then []
    else batch + Paginate(l, batch[|batch| - 1].cookie, cap)
  }

  /**
   * When every item from `offset` on fits in an empty buffer, paging from
   * `offset` returns each item of the listing from there exactly once, in
   * order, with its own cookie.
   */
  lemma {:induction false} PaginateCovers(l: seq<Listed>, offset: nat, cap: nat)
    requires offset <= |l|
    requires forall j :: offset <= j < |l| ==> DirentSize(l[j].name) <= cap
    ensures |Paginate(l, offset, cap)| == |l| - offset
    ensures forall m :: 0 <= m < |l| - offset ==> Paginate(l, offset, cap)[m] == ItemAt(l, offset + m)
    decreases |l| - offset
  {
    var batch := Emit(l, offset, cap);
    if offset < |l| {
      assert Cost(l, offset, 1) == DirentSize(l[offset].name);
      assert |batch| > 0;
      var next := batch[|batch| - 1].cookie;
      assert next == offset + |batch|;
      PaginateCovers(l, next, cap);
      var p := Paginate(l, offset, cap);
      assert p == batch + Paginate(l, next, cap);
      forall m | 0 <= m < |l| - offset
        ensures p[m] == ItemAt(l, offset + m)
      {
        if m >= |batch| {
          assert p[m] == Paginate(l, next, cap)[m - |batch|];
        }
      }
    }
  }
}

=== FILE: dispatcher.dfy ===
/**
 * The callback boundary: the ten kernel requests as one closed set of
 * variants, each routed to its engine transition, with the result encoded as
 * the reply kind the kernel bridge expects for that request.
 */
module Dispatcher {
  import opened FsTypes
  import opened Namespace
  import opened DirList
  import opened Engine
  import opened Properties
  import Buffer
  import Utf8

  /** A kernel request with the arguments the engine reads. */
  datatype Request =
    | LookupReq(parent: Ino, name: Name)
    | GetAttrReq(ino: Ino)
    | ReadDirReq(ino: Ino, offset: nat, cap: nat, order: seq<Key>)
    | CreateReq(parent: Ino, name: Name, mode: U32)
    | SetAttrReq(ino: Ino, args: SetAttrArgs)
    | UnlinkReq(parent: Ino, name: Name)
    | ReadReq(ino: Ino, offset: nat, size: U32)
    | WriteReq(ino: Ino, offset: nat, data: seq<bv8>)
    | MkDirReq(parent: Ino, name: Name, mode: U32)
    | RmDirReq(parent: Ino, name: Name)
  {
    /** The requests that only observe the engine. */
    predicate IsQuery() {
      LookupReq? || GetAttrReq? || ReadDirReq? || ReadReq?
    }
  }

  /** The reply sent back for one request. */
  datatype Reply =
    | EntryReply(attr: Attr)
    | AttrReply(attr: Attr)
    | DirReply(items: seq<DirItem>)
    | CreatedReply(attr: Attr)
    | EmptyReply
    | DataReply(bytes: seq<bv8>)
    | WrittenReply(count: nat)
    | ErrorReply(code: nat)

  datatype Transition = Transition(state: FsState, reply: Reply)

  /** The reply for a step: its payload wrapped by `wrap`, or the Linux value of its error number. */
  function Encode<T>(st: Step<T>, wrap: T -> Reply): (t: Transition)
  {
    match st.reply
    case Ok(v) => Transition(st.state, wrap(v))
    case Err(e) => Transition(st.state, ErrorReply(e.Code()))
  }

  /** Whether the arguments a request carries fit the state it is applied to. */
  predicate Admissible(s: FsState, req: Request) {
    req.ReadDirReq? ==> IsEnumeration(req.order, s.entries.Keys)
  }

  /**
   * The reply kinds the kernel bridge accepts for a request: an entry for
   * lookup and mkdir, attributes for getattr and setattr, directory items for
   * readdir, a created entry for create, an empty reply for unlink and rmdir,
   * data for read, a count for write, and an error number for any of them.
   */
  predicate Answers(req: Request, reply: Reply) {
    || reply.ErrorReply?
    || (reply.EntryReply? && (req.LookupReq? || req.MkDirReq?))
    || (reply.AttrReply? && (req.GetAttrReq? || req.SetAttrReq?))
    || (reply.DirReply? && req.ReadDirReq?)
    || (reply.CreatedReply? && req.CreateReq?)
    || (reply.EmptyReply? && (req.UnlinkReq? || req.RmDirReq?))
    || (reply.DataReply? && req.ReadReq?)
    || (reply.WrittenReply? && req.WriteReq?)
  }

  /** The requests that name an entry by parent and name. */
  predicate NamesEntry(req: Request) {
    req.LookupReq? || req.CreateReq? || req.UnlinkReq? || req.MkDirReq? || req.RmDirReq?
  }

  /**
   * Runs one request against the engine. The reply has the kind the request
   * expects and carries what the callback computes; an error reply and every
   * query leave the state as it was; and each request fails exactly when its
   * callback's checks refuse it.
   */
  function Dispatch(s: FsState, env: Env, req: Request): (t: Transition)
    requires Admissible(s, req)
    ensures Answers(req, t.reply)
    ensures t.reply.ErrorReply? ==> t.state == s
    ensures t.reply.ErrorReply? ==> t.reply.code in {2, 17, 20, 22, 39}
    ensures (req.GetAttrReq? || req.SetAttrReq? || req.ReadReq? || req.WriteReq?) && t.reply.ErrorReply? ==> t.reply.code == ENOENT.Code()
    ensures req.IsQuery() ==> t.state == s
    ensures req.GetAttrReq? || req.SetAttrReq? ==> (t.reply.ErrorReply? <==> req.ino !in s.inodes)
    ensures req.ReadReq? || req.WriteReq? ==> (t.reply.ErrorReply? <==> req.ino !in s.fileData)
    ensures req.ReadDirReq? ==>
      (t.reply.DirReply? <==> req.ino in s.inodes && s.inodes[req.ino].kind == Directory)
    ensures NamesEntry(req) && !Utf8.IsValid(req.name) ==> t.reply == ErrorReply(EINVAL.Code())
    ensures req.LookupReq? ==>
      (t.reply.ErrorReply? <==> !Utf8.IsValid(req.name) || !IsChild(s, req.parent, req.name))
    ensures req.CreateReq? || req.MkDirReq? ==>
      (t.reply.ErrorReply? <==> !Utf8.IsValid(req.name) || (req.parent, req.name) in s.entries)
    ensures req.UnlinkReq? ==>
      (t.reply.ErrorReply? <==> !Utf8.IsValid(req.name) || (req.parent, req.name) !in s.entries)
    ensures req.RmDirReq? ==>
      (!t.reply.ErrorReply? <==>
        && Utf8.IsValid(req.name) && (req.parent, req.name) in s.entries
        && s.entries[(req.parent, req.name)] in s.inodes
        && s.inodes[s.entries[(req.parent, req.name)]].kind == Directory
        && IsEmptyDir(s, s.entries[(req.parent, req.name)]))
    ensures req.LookupReq? && t.reply.EntryReply? ==>
      IsChild(s, req.parent, req.name) && t.reply.attr == s.inodes[s.entries[(req.parent, req.name)]]
    ensures (req.CreateReq? || req.MkDirReq?) && !t.reply.ErrorReply? ==>
      && t.reply.attr.ino == s.counter
      && t.reply.attr.kind == (if req.CreateReq? then RegularFile else Directory)
      && t.state.entries == s.entries[(req.parent, req.name) := s.counter]
    ensures req.GetAttrReq? && t.reply.AttrReply? ==> req.ino in s.inodes && t.reply.attr == s.inodes[req.ino]
    ensures req.SetAttrReq? && t.reply.AttrReply? ==>
      req.ino in s.inodes && t.reply.attr == ApplySetAttr(s.inodes[req.ino], req.args, env.now)
    ensures req.ReadReq? && t.reply.DataReply? ==>
      req.ino in s.fileData && t.reply.bytes == Buffer.ReadAt(s.fileData[req.ino], req.offset, req.size)
    ensures req.WriteReq? && t.reply.WrittenReply? ==> t.reply.count == |req.data| % U32_MODULUS
    ensures req.ReadDirReq? && t.reply.DirReply? ==>
      t.reply.items == Emit(Listing(s, req.order, req.ino), req.offset, req.cap)
  {
    match req
    case LookupReq(parent, name) => Encode(Lookup(s, parent, name), (a: Attr) => EntryReply(a))
    case GetAttrReq(ino) => Encode(GetAttr(s, ino), (a: Attr) => AttrReply(a))
    case ReadDirReq(ino, offset, cap, order) => Encode(ReadDir(s, ino, offset, cap, order), (items: seq<DirItem>) => DirReply(items))
    case CreateReq(parent, name, mode) => Encode(Create(s, env, parent, name, mode), (a: Attr) => CreatedReply(a))
    case SetAttrReq(ino, args) => Encode(SetAttr(s, env, ino, args), (a: Attr) => AttrReply(a))
    case UnlinkReq(parent, name) => Encode(Unlink(s, parent, name), (u: ()) => EmptyReply)
    case ReadReq(ino, offset, size) => Encode(Read(s, ino, offset, size), (b: seq<bv8>) => DataReply(b))
    case WriteReq(ino, offset, data) => Encode(Write(s, env, ino, offset, data), (n: nat) => WrittenReply(n))
    case MkDirReq(parent, name, mode) => Encode(MkDir(s, env, parent, name, mode), (a: Attr) => EntryReply(a))
    case RmDirReq(parent, name) => Encode(RmDir(s, parent, name), (u: ()) => EmptyReply)
  }

  /**
   * Every request keeps the invariant, an error reply leaves the state as it
   * was, and a query never changes it.
   */
  lemma DispatchPreservesWf(s: FsState, env: Env, req: Request)
    requires Wf(s) && Admissible(s, req)
    ensures Wf(Dispatch(s, env, req).state)
    ensures Dispatch(s, env, req).reply.ErrorReply? ==> Dispatch(s, env, req).state == s
    ensures req.IsQuery() ==> Dispatch(s, env, req).state == s
  {
    match req
    case LookupReq(_, _) =>
    case GetAttrReq(_) =>
    case ReadDirReq(_, _, _, _) =>
    case ReadReq(_, _, _) =>
    case CreateReq(parent, name, mode) => CreatePreservesWf(s, env, parent, name, mode);
    case MkDirReq(parent, name, mode) => MkDirPreservesWf(s, env, parent, name, mode);
    case SetAttrReq(ino, args) => SetAttrPreservesWf(s, env, ino, args);
    case WriteReq(ino, offset, data) => WritePreservesWf(s, env, ino, offset, data);
    case UnlinkReq(parent, name) => UnlinkPreservesWf(s, parent, name);
    case RmDirReq(parent, name) => RmDirPreservesWf(s, parent, name);
  }

  /**
   * Ids are handed out by the counter alone: the counter never goes down,
   * every live id after a request was live before or is the old counter, and
   * an id below the counter that is not live never becomes live again.
   */
  lemma DispatchIdsNeverReused(s: FsState, env: Env, req: Request)
    requires Wf(s) && Admissible(s, req)
    ensures var s1 := Dispatch(s, env, req).state;
      && s.counter <= s1.counter
      && (forall i :: i in s1.inodes ==> i in s.inodes || i == s.counter)
      && (forall i :: i < s.counter && i !in s.inodes ==> i !in s1.inodes)
  {
    DispatchPreservesWf(s, env, req);
  }

  // ---------------------------------------------------------------------
  // A worked session

  const NAME_A: Name := [0x61]
  const NAME_B: Name := [0x62]
  const NAME_MISSING: Name := [0x6D, 0x69, 0x73, 0x73, 0x69, 0x6E, 0x67]
  const HELLO: seq<bv8> := [0x68, 0x65, 0x6C, 0x6C, 0x6F]

  /** The first two steps of the session: mkdir /a, then create /a/b. */
  lemma SessionBuild(env: Env, mode: U32)
    ensures
      var s0 := New(env);
      var r1 := MkDir(s0, env, ROOT, NAME_A, mode);
      var r2 := Create(r1.state, env, 2, NAME_B, mode);
      && r1.reply.Ok? && r1.reply.value.ino == 2
      && r2.reply.Ok? && r2.reply.value.ino == 3
      && r2.state.entries == map[(ROOT, NAME_A) := 2, (2, NAME_B) := 3]
      && 2 in r2.state.inodes && r2.state.inodes[2].kind == Directory
      && 3 in r2.state.fileData
  {
    Utf8.AsciiIsValid(NAME_A);
    Utf8.AsciiIsValid(NAME_B);
    var r1 := MkDir(New(env), env, ROOT, NAME_A, mode);
    assert r1.state.entries == map[(ROOT, NAME_A) := 2];
    assert (2, NAME_B) !in r1.state.entries;
  }

  /**
   * The removal steps of the session: with /a a directory holding only /a/b,
   * rmdir /a is refused, unlink /a/b succeeds, and rmdir /a then succeeds.
   */
  lemma SessionRemove(s: FsState)
    requires s.entries == map[(ROOT, NAME_A) := 2, (2, NAME_B) := 3]
    requires 2 in s.inodes && s.inodes[2].kind == Directory
    ensures RmDir(s, ROOT, NAME_A).reply == Err(ENOTEMPTY)
    ensures Unlink(s, 2, NAME_B).reply.Ok?
    ensures RmDir(Unlink(s, 2, NAME_B).state, ROOT, NAME_A).reply.Ok?
  {
    Utf8.AsciiIsValid(NAME_A);
    Utf8.AsciiIsValid(NAME_B);
    assert (2, NAME_B) in s.entries;
    var s1 := Unlink(s, 2, NAME_B).state;
    assert s1.entries == map[(ROOT, NAME_A) := 2];
  }

  /**
   * mkdir /a, create /a/b, write "hello" to it and read it back; rmdir /a is
   * refused while /a/b exists and succeeds once /a/b is unlinked.
   */
  lemma Session(env: Env, mode: U32)
    ensures
      var r1 := MkDir(New(env), env, ROOT, NAME_A, mode);
      var r2 := Create(r1.state, env, 2, NAME_B, mode);
      var r3 := Write(r2.state, env, 3, 0, HELLO);
      var r4 := Unlink(r3.state, 2, NAME_B);
      && r1.reply.Ok? && r2.reply.Ok?
      && r3.reply == Ok(5)
      && Read(r3.state, 3, 0, 5).reply == Ok(HELLO)
      && RmDir(r3.state, ROOT, NAME_A).reply == Err(ENOTEMPTY)
      && r4.reply.Ok?
      && RmDir(r4.state, ROOT, NAME_A).reply.Ok?
  {
    SessionBuild(env, mode);
    var r1 := MkDir(New(env), env, ROOT, NAME_A, mode);
    var r2 := Create(r1.state, env, 2, NAME_B, mode);
    WriteThenRead(r2.state, env, 3, 0, HELLO);
    var r3 := Write(r2.state, env, 3, 0, HELLO);
    assert r3.state.entries == r2.state.entries;
    assert 2 in r3.state.inodes && r3.state.inodes[2].kind == Directory;
    SessionRemove(r3.state);
  }

  /** A lookup of a name the root does not hold fails with ENOENT. */
  lemma LookupMissing(env: Env)
    ensures Lookup(New(env), ROOT, NAME_MISSING).reply == Err(ENOENT)
  {
    Utf8.AsciiIsValid(NAME_MISSING);
  }
}

=== FILE: engine.dfy ===
/**
 * The filesystem engine: one state value holding the inode counter, the
 * attribute table, the (parent, name) -> child namespace and the content
 * buffers, and the ten kernel callbacks, each a single transition that
 * returns the next state with a reply or an error number.
 *
 * The callbacks are modelled as written, including what they do not check:
 * create and mkdir accept any parent, unlink removes any kind of object and
 * keeps its content buffer, and setattr neither resizes the buffer nor uses
 * write's block formula.
 */
module Engine {
  import opened FsTypes
  import opened Buffer
  import opened Namespace
  import opened DirList
  import Utf8

  /** `mode & 0o7777` keeps the low twelve bits of a mode. */
  const PERM_MODULUS: nat := 0x1000

  /** `mode as u16` keeps the low sixteen bits of a mode. */
  const U16_MODULUS: nat := 0x1_0000

  /** `len as u32` keeps the low thirty-two bits of a count. */
  const U32_MODULUS: nat := 0x1_0000_0000

  /** Permission bits of the root directory, 0o755. */
  const ROOT_PERM: U16 := 493

  /** Size and block count a directory record is built with. */
  const DIR_SIZE: nat := 4096
  const DIR_BLOCKS: nat := 8

  // ---------------------------------------------------------------------
  // The state invariant

  /**
   * What every state reachable from `New` satisfies: the root is a live
   * directory; every live id is below the counter and is the id in its own
   * record; the live ids are exactly the root and the children of entries;
   * no child is named twice; buffers belong to ids below the counter and,
   * while the id is live, to a regular file.
   */
  predicate Wf(s: FsState) {
    && ROOT < s.counter
    && ROOT in s.inodes && s.inodes[ROOT].kind == Directory
    && (forall i :: i in s.inodes ==> i < s.counter && s.inodes[i].ino == i && s.inodes[i].blksize == BLKSIZE)
    && s.inodes.Keys == {ROOT} + s.entries.Values
    && ROOT !in s.entries.Values
    && ChildrenUnique(s.entries)
    && (forall i :: i in s.fileData ==> ROOT < i < s.counter && (i in s.inodes ==> s.inodes[i].kind == RegularFile))
  }

  // ---------------------------------------------------------------------
  // Construction and the two entry helpers

  function RootAttr(env: Env): Attr {
    Attr(ROOT, DIR_SIZE, DIR_BLOCKS, env.now, env.now, env.now, env.now,
         Directory, ROOT_PERM, 2, env.euid, env.egid, 0, BLKSIZE, 0)
  }

  /** A fresh engine: only the root directory, counter just past the root. */
  function New(env: Env): (s: FsState)
    ensures Wf(s)
    ensures s.counter == ROOT + 1
    ensures s.inodes.Keys == {ROOT} && s.entries == map[] && s.fileData == map[]
    ensures s.inodes[ROOT].perm == ROOT_PERM && s.inodes[ROOT].nlink == 2
    ensures s.inodes[ROOT].size == DIR_SIZE && s.inodes[ROOT].blocks == DIR_BLOCKS
    ensures s.inodes[ROOT].uid == env.euid && s.inodes[ROOT].gid == env.egid
    ensures var a := s.inodes[ROOT];
      a.atime == a.mtime == a.ctime == a.crtime == env.now && a.rdev == 0 && a.flags == 0
  {
    FsState(ROOT + 1, map[ROOT := RootAttr(env)], map[], map[])
  }

  /** Records `attr` under its own id and names it `name` in `parent`; nothing else changes. */
  function AddEntry(s: FsState, parent: Ino, name: Name, attr: Attr): (r: FsState)
    ensures r.inodes.Keys == s.inodes.Keys + {attr.ino} && r.inodes[attr.ino] == attr
    ensures forall i :: i in s.inodes && i != attr.ino ==> r.inodes[i] == s.inodes[i]
    ensures r.entries.Keys == s.entries.Keys + {(parent, name)} && r.entries[(parent, name)] == attr.ino
    ensures forall k :: k in s.entries && k != (parent, name) ==> r.entries[k] == s.entries[k]
    ensures r.counter == s.counter && r.fileData == s.fileData
  {
    s.(inodes := s.inodes[attr.ino := attr], entries := s.entries[(parent, name) := attr.ino])
  }

  /** Drops the record of `ino` and the entry `key`; nothing else changes. */
  function RemoveEntry(s: FsState, ino: Ino, key: Key): (r: FsState)
    ensures r.inodes.Keys == s.inodes.Keys - {ino}
    ensures forall i :: i in r.inodes ==> r.inodes[i] == s.inodes[i]
    ensures r.entries.Keys == s.entries.Keys - {key}
    ensures forall k :: k in r.entries ==> r.entries[k] == s.entries[k]
    ensures r.counter == s.counter && r.fileData == s.fileData
  {
    s.(inodes := s.inodes - {ino}, entries := s.entries - {key})
  }

  // ---------------------------------------------------------------------
  // Read-only callbacks

  /** lookup: the record of the child `name` of `parent`. */
  function Lookup(s: FsState, parent: Ino, name: Name): (r: Step<Attr>)
    ensures r.state == s
    ensures !Utf8.IsValid(name) ==> r.reply == Err(EINVAL)
    ensures Utf8.IsValid(name) && !IsChild(s, parent, name) ==> r.reply == Err(ENOENT)
    ensures Utf8.IsValid(name) && IsChild(s, parent, name) ==> r.reply == Ok(s.inodes[s.entries[(parent, name)]])
  {
    if !Utf8.IsValid(name) then Step(s, Err(EINVAL))
    else
      match MapGet(s.entries, (parent, name))
      case None => Step(s, Err(ENOENT))
      case Some(child) =>
        if child in s.inodes then Step(s, Ok(s.inodes[child])) else Step(s, Err(ENOENT))
  }

  function MapGet<K, V>(m: map<K, V>, k: K): Option<V> {
    if k in m then Some(m[k]) else None
  }

  /** getattr: the record of `ino`. */
  function GetAttr(s: FsState, ino: Ino): (r: Step<Attr>)
    ensures r.state == s
    ensures r.reply.Ok? <==> ino in s.inodes
    ensures r.reply.Ok? ==> r.reply.value == s.inodes[ino]
    ensures r.reply.Err? ==> r.reply.errno == ENOENT
  {
    match MapGet(s.inodes, ino)
    case Some(attr) => Step(s, Ok(attr))
    case None => Step(s, Err(ENOENT))
  }

  /**
   * readdir: the items of the listing of `ino` from position `offset` on that
   * fit in a reply buffer of `cap` bytes. `order` is the iteration order of
   * the entry map.
   */
  function ReadDir(s: FsState, ino: Ino, offset: nat, cap: nat, order: seq<Key>): (r: Step<seq<DirItem>>)
    requires IsEnumeration(order, s.entries.Keys)
    ensures r.state == s
    ensures ino !in s.inodes ==> r.reply == Err(ENOENT)
    ensures ino in s.inodes && s.inodes[ino].kind != Directory ==> r.reply == Err(ENOTDIR)
    ensures r.reply.Ok? <==> ino in s.inodes && s.inodes[ino].kind == Directory
    ensures r.reply.Ok? ==> r.reply.value == Emit(Listing(s, order, ino), offset, cap)
    ensures r.reply.Ok? ==> forall m :: 0 <= m < |r.reply.value| ==> r.reply.value[m].cookie == offset + m + 1
  {
    if ino !in s.inodes then Step(s, Err(ENOENT))
    else if s.inodes[ino].kind != Directory then Step(s, Err(ENOTDIR))
    else Step(s, Ok(Emit(Listing(s, order, ino), offset, cap)))
  }

  /** read: at most `size` bytes of the buffer of `ino` from `offset`. */
  function Read(s: FsState, ino: Ino, offset: nat, size: U32): (r: Step<seq<bv8>>)
    ensures r.state == s
    ensures r.reply.Err? <==> ino !in s.fileData
    ensures r.reply.Err? ==> r.reply.errno == ENOENT
    ensures r.reply.Ok? ==> |r.reply.value| <= size
    ensures r.reply.Ok? && offset > |s.fileData[ino]| ==> r.reply.value == []
    ensures r.reply.Ok? && offset <= |s.fileData[ino]| ==> |r.reply.value| == Min(size, |s.fileData[ino]| - offset)
    ensures r.reply.Ok? ==> forall i :: 0 <= i < |r.reply.value| ==>
              offset + i < |s.fileData[ino]| && r.reply.value[i] == s.fileData[ino][offset + i]
  {
    match MapGet(s.fileData, ino)
    case Some(content) => Step(s, Ok(ReadAt(content, offset, size)))
    case None => Step(s, Err(ENOENT))
  }

  // ---------------------------------------------------------------------
  // Creating objects

  /** The record create builds for a new regular file. */
  function FileAttr(ino: Ino, env: Env, mode: U32): Attr {
    Attr(ino, 0, 0, env.now, env.now, env.now, env.now,
         RegularFile, mode % PERM_MODULUS, 1, env.euid, env.egid, 0, BLKSIZE, 0)
  }

  /** The record mkdir builds for a new directory. */
  function DirAttr(ino: Ino, env: Env, mode: U32): Attr {
    Attr(ino, DIR_SIZE, DIR_BLOCKS, env.now, env.now, env.now, env.now,
         Directory, mode % PERM_MODULUS, 2, env.euid, env.egid, 0, BLKSIZE, 0)
  }

  /**
   * create: a new empty regular file `name` in `parent`, under the id the
   * counter holds. The parent is not checked.
   */
  function Create(s: FsState, env: Env, parent: Ino, name: Name, mode: U32): (r: Step<Attr>)
    ensures !Utf8.IsValid(name) ==> r == Step(s, Err(EINVAL))
    ensures Utf8.IsValid(name) && (parent, name) in s.entries ==> r == Step(s, Err(EEXIST))
    ensures r.reply.Ok? <==> Utf8.IsValid(name) && (parent, name) !in s.entries
    ensures r.reply.Ok? ==>
      var a := r.reply.value;
      && a.ino == s.counter && a.kind == RegularFile
      && a.size == 0 && a.blocks == 0 && a.nlink == 1 && a.perm == mode % PERM_MODULUS
      && a.uid == env.euid && a.gid == env.egid && a.blksize == BLKSIZE
      && a.atime == a.mtime == a.ctime == a.crtime == env.now && a.rdev == 0 && a.flags == 0
      && r.state.counter == s.counter + 1
      && r.state.inodes == s.inodes[a.ino := a]
      && r.state.entries == s.entries[(parent, name) := a.ino]
      && r.state.fileData == s.fileData[a.ino := []]
  {
    if !Utf8.IsValid(name) then Step(s, Err(EINVAL))
    else if (parent, name) in s.entries then Step(s, Err(EEXIST))
    else
      var ino := s.counter;
      var s1 := s.(counter := s.counter + 1);
      var attr := FileAttr(ino, env, mode);
      var s2 := AddEntry(s1, parent, name, attr);
      Step(s2.(fileData := s2.fileData[ino := []]), Ok(attr))
  }

  /**
   * mkdir: a new directory `name` in `parent`, under the id the counter
   * holds, with no content buffer. The parent is not checked.
   */
  function MkDir(s: FsState, env: Env, parent: Ino, name: Name, mode: U32): (r: Step<Attr>)
    ensures !Utf8.IsValid(name) ==> r == Step(s, Err(EINVAL))
    ensures Utf8.IsValid(name) && (parent, name) in s.entries ==> r == Step(s, Err(EEXIST))
    ensures r.reply.Ok? <==> Utf8.IsValid(name) && (parent, name) !in s.entries
    ensures r.reply.Ok? ==>
      var a := r.reply.value;
      && a.ino == s.counter && a.kind == Directory
      && a.size == DIR_SIZE && a.blocks == DIR_BLOCKS && a.nlink == 2 && a.perm == mode % PERM_MODULUS
      && a.uid == env.euid && a.gid == env.egid && a.blksize == BLKSIZE
      && a.atime == a.mtime == a.ctime == a.crtime == env.now && a.rdev == 0 && a.flags == 0
      && r.state.counter == s.counter + 1
      && r.state.inodes == s.inodes[a.ino := a]
      && r.state.entries == s.entries[(parent, name) := a.ino]
      && r.state.fileData == s.fileData
  {
    if !Utf8.IsValid(name) then Step(s, Err(EINVAL))
    else if (parent, name) in s.entries then Step(s, Err(EEXIST))
    else
      var ino := s.counter;
      var s1 := s.(counter := s.counter + 1);
      var attr := DirAttr(ino, env, mode);
      Step(AddEntry(s1, parent, name, attr), Ok(attr))
  }

  // ---------------------------------------------------------------------
  // Changing objects

  /** A time field of setattr: a given time, or the clock. */
  datatype TimeOrNow = SpecificTime(time: Time) | Now

  /** The fields setattr may change; an absent field is left as it is. */
  datatype SetAttrArgs = SetAttrArgs(
    mode: Option<U32>,
    uid: Option<U32>,
    gid: Option<U32>,
    size: Option<nat>,
    atime: Option<TimeOrNow>,
    mtime: Option<TimeOrNow>,
    crtime: Option<Time>,
    chgtime: Option<Time>,
    flags: Option<U32>)

  function Resolve(t: TimeOrNow, now: Time): Time {
    match t
    case SpecificTime(x) => x
    case Now => now
  }

  /** The value of a field after setattr: the given one if present, else the old one. */
  function Pick<T>(given: Option<T>, current: T): T {
    match given
    case Some(v) => v
    case None => current
  }

  /**
   * The record after setattr. A new size recomputes the block count against
   * the record's own block size, not the 512-byte units write uses, and a
   * new mode is cut to sixteen bits without masking the file-type bits.
   */
  function ApplySetAttr(a: Attr, args: SetAttrArgs, now: Time): (b: Attr)
    ensures b.ino == a.ino && b.kind == a.kind && b.nlink == a.nlink && b.rdev == a.rdev && b.blksize == a.blksize
    ensures b.perm == (if args.mode.Some? then args.mode.value % U16_MODULUS else a.perm)
    ensures b.uid == Pick(args.uid, a.uid) && b.gid == Pick(args.gid, a.gid) && b.flags == Pick(args.flags, a.flags)
    ensures args.size.None? ==> b.size == a.size && b.blocks == a.blocks
    ensures args.size.Some? ==> b.size == args.size.value && b.blocks * a.blksize >= b.size
    ensures args.size.Some? ==> b.blocks == 0 || (b.blocks - 1) * a.blksize < b.size
    ensures b.atime == (if args.atime.Some? then Resolve(args.atime.value, now) else a.atime)
    ensures b.mtime == (if args.mtime.Some? then Resolve(args.mtime.value, now) else a.mtime)
    ensures b.crtime == Pick(args.crtime, a.crtime) && b.ctime == Pick(args.chgtime, a.ctime)
  {
    var perm: U16 := if args.mode.Some? then args.mode.value % U16_MODULUS else a.perm;
    var size := Pick(args.size, a.size);
    var blocks := if args.size.Some? then DivCeil(args.size.value, a.blksize) else a.blocks;
    var atime := if args.atime.Some? then Resolve(args.atime.value, now) else a.atime;
    var mtime := if args.mtime.Some? then Resolve(args.mtime.value, now) else a.mtime;
    a.(perm := perm, uid := Pick(args.uid, a.uid), gid := Pick(args.gid, a.gid),
       size := size, blocks := blocks, atime := atime, mtime := mtime,
       crtime := Pick(args.crtime, a.crtime), ctime := Pick(args.chgtime, a.ctime),
       flags := Pick(args.flags, a.flags))
  }

  /** setattr: changes the given fields of the record of `ino`; only that record changes. */
  function SetAttr(s: FsState, env: Env, ino: Ino, args: SetAttrArgs): (r: Step<Attr>)
    ensures ino !in s.inodes ==> r == Step(s, Err(ENOENT))
    ensures ino in s.inodes ==> r.reply.Ok? && r.state == s.(inodes := s.inodes[ino := r.reply.value])
    ensures ino in s.inodes ==> r.reply.value == ApplySetAttr(s.inodes[ino], args, env.now)
  {
    match MapGet(s.inodes, ino)
    case None => Step(s, Err(ENOENT))
    case Some(a) =>
      var b := ApplySetAttr(a, args, env.now);
      Step(s.(inodes := s.inodes[ino := b]), Ok(b))
  }

  /**
   * write: `data` into the buffer of `ino` at `offset`, growing it with
   * zeros as needed; the record, if there is one, takes the buffer's new
   * length as its size. The reply is the byte count cut to 32 bits.
   */
  function Write(s: FsState, env: Env, ino: Ino, offset: nat, data: seq<bv8>): (r: Step<nat>)
    ensures ino !in s.fileData ==> r == Step(s, Err(ENOENT))
    ensures ino in s.fileData ==> ino in r.state.fileData
    ensures ino in s.fileData ==>
      var buf := r.state.fileData[ino];
      && r.reply == Ok(|data| % U32_MODULUS)
      && r.state.fileData == s.fileData[ino := buf]
      && |buf| == Max(|s.fileData[ino]|, offset + |data|)
      && (forall i :: 0 <= i < |data| ==> buf[offset + i] == data[i])
      && (forall i :: |s.fileData[ino]| <= i < offset ==> buf[i] == 0)
      && (forall i :: 0 <= i < |s.fileData[ino]| && (i < offset || offset + |data| <= i) ==> buf[i] == s.fileData[ino][i])
      && r.state.counter == s.counter && r.state.entries == s.entries
      && r.state.inodes.Keys == s.inodes.Keys
      && (forall i :: i in s.inodes && i != ino ==> r.state.inodes[i] == s.inodes[i])
    ensures ino in s.fileData && ino in s.inodes ==>
      var a := r.state.inodes[ino];
      && a.size == |r.state.fileData[ino]|
      && a.blocks == WriteBlocks(a.size)
      && a.mtime == env.now
      && a == s.inodes[ino].(size := a.size, blocks := a.blocks, mtime := a.mtime)
  {
    match MapGet(s.fileData, ino)
    case None => Step(s, Err(ENOENT))
    case Some(content) =>
      var buf := WriteAt(content, offset, data);
      var inodes :=
        if ino in s.inodes then
          s.inodes[ino := s.inodes[ino].(size := |buf|, blocks := WriteBlocks(|buf|), mtime := env.now)]
        else s.inodes;
      Step(s.(fileData := s.fileData[ino := buf], inodes := inodes), Ok(|data| % U32_MODULUS))
  }

  // ---------------------------------------------------------------------
  // Removing objects

  /**
   * unlink: drops the entry `name` of `parent` and the record of its child,
   * whatever its kind and link count. The content buffer stays.
   */
  function Unlink(s: FsState, parent: Ino, name: Name): (r: Step<()>)
    ensures !Utf8.IsValid(name) ==> r == Step(s, Err(EINVAL))
    ensures Utf8.IsValid(name) && (parent, name) !in s.entries ==> r == Step(s, Err(ENOENT))
    ensures r.reply.Ok? <==> Utf8.IsValid(name) && (parent, name) in s.entries
    ensures r.reply.Ok? ==>
      var child := s.entries[(parent, name)];
      && r.state.entries == s.entries - {(parent, name)}
      && r.state.inodes == s.inodes - {child}
      && r.state.fileData == s.fileData
      && r.state.counter == s.counter
  {
    if !Utf8.IsValid(name) then Step(s, Err(EINVAL))
    else
      var key := (parent, name);
      match MapGet(s.entries, key)
      case Some(ino) => Step(s.(entries := s.entries - {key}, inodes := s.inodes - {ino}), Ok(()))
      case None => Step(s, Err(ENOENT))
  }

  /**
   * rmdir: drops the entry `name` of `parent` and the record of its child,
   * provided the child is a live directory that no entry has as parent.
   * The checks are made in this order: name, entry, record, kind, emptiness.
   */
  function RmDir(s: FsState, parent: Ino, name: Name): (r: Step<()>)
    ensures r.reply.Err? ==> r.state == s
    ensures !Utf8.IsValid(name) ==> r.reply == Err(EINVAL)
    ensures Utf8.IsValid(name) && (parent, name) !in s.entries ==> r.reply == Err(ENOENT)
    ensures Utf8.IsValid(name) && (parent, name) in s.entries ==>
      var child := s.entries[(parent, name)];
      && (child !in s.inodes ==> r.reply == Err(ENOENT))
      && (child in s.inodes && s.inodes[child].kind != Directory ==> r.reply == Err(ENOTDIR))
      && (child in s.inodes && s.inodes[child].kind == Directory && !IsEmptyDir(s, child) ==> r.reply == Err(ENOTEMPTY))
    ensures r.reply.Ok? <==>
      && Utf8.IsValid(name) && (parent, name) in s.entries
      && s.entries[(parent, name)] in s.inodes
      && s.inodes[s.entries[(parent, name)]].kind == Directory
      && IsEmptyDir(s, s.entries[(parent, name)])
    ensures r.reply.Ok? ==>
      var child := s.entries[(parent, name)];
      r.state == s.(entries := s.entries - {(parent, name)}, inodes := s.inodes - {child})
  {
    if !Utf8.IsValid(name) then Step(s, Err(EINVAL))
    else
      var key := (parent, name);
      match MapGet(s.entries, key)
      case None => Step(s, Err(ENOENT))
      case Some(ino) =>
        match MapGet(s.inodes, ino)
        case None => Step(s, Err(ENOENT))
        case Some(attr) =>
          if attr.kind != Directory then Step(s, Err(ENOTDIR))
          else if exists k | k in s.entries :: k.0 == ino then Step(s, Err(ENOTEMPTY))
          else Step(RemoveEntry(s, ino, key), Ok(()))
  }
}

=== FILE: fstypes.dfy ===
/**
 * Vocabulary of the in-memory filesystem engine: inode numbers, entry names,
 * attribute records, the engine state, POSIX error numbers and replies.
 */
module FsTypes {

  /** Inode number: names one filesystem object for the lifetime of a mount. */
  type Ino = nat

  /** A directory-entry name, as the bytes the kernel hands over. */
  type Name = seq<bv8>

  /** Key of the directory namespace: (parent inode, entry name). */
  type Key = (Ino, Name)

  /** A clock reading. The engine stores and reports it and never inspects it. */
  type Time = nat

  type U16 = x: nat | x < 0x1_0000
  type U32 = x: nat | x < 0x1_0000_0000

  /** Preferred I/O block size. It divides the size in setattr, so it is never zero. */
  type BlkSize = x: nat | 0 < x < 0x1_0000_0000 witness 4096

  /** The inode number the kernel protocol reserves for the mount's root. */
  const ROOT: Ino := 1

  /** The block size every attribute record is built with. */
  const BLKSIZE: BlkSize := 4096

  /** The object kinds the engine ever builds. */
  datatype Kind = Directory | RegularFile

  /** One attribute record, field for field as the kernel bridge reports it. */
  datatype Attr = Attr(
    ino: Ino,
    size: nat,
    blocks: nat,
    atime: Time,
    mtime: Time,
    ctime: Time,
    crtime: Time,
    kind: Kind,
    perm: U16,
    nlink: U32,
    uid: U32,
    gid: U32,
    rdev: U32,
    blksize: BlkSize,
    flags: U32)

  /** The error numbers the callbacks reply with. */
  datatype Errno = EINVAL | EEXIST | ENOENT | ENOTDIR | ENOTEMPTY {
    /** The Linux value of the error number. */
    function Code(): nat {
      match this
      case EINVAL => 22
      case EEXIST => 17
      case ENOENT => 2
      case ENOTDIR => 20
      case ENOTEMPTY => 39
    }
  }

  datatype Option<+T> = None | Some(value: T)

  /** A callback's payload, or the error number it replies with instead. */
  datatype Result<+T> = Ok(value: T) | Err(errno: Errno)

  /**
   * What a callback reads from outside the engine: the clock and the
   * effective user and group of the hosting process.
   */
  datatype Env = Env(now: Time, euid: U32, egid: U32)

  /**
   * The whole engine: the inode counter, the attribute table, the
   * (parent, name) -> child namespace and the per-file content buffers.
   */
  datatype FsState = FsState(
    counter: Ino,
    inodes: map<Ino, Attr>,
    entries: map<Key, Ino>,
    fileData: map<Ino, seq<bv8>>)

  /** The outcome of one callback: the next state and the reply. */
  datatype Step<+T> = Step(state: FsState, reply: Result<T>)
}

=== FILE: namespace.dfy ===
/**
 * The directory namespace seen from readdir: the parent of a directory
 * (found by a scan over all entries) and the children of a directory, in the
 * order the entry map is iterated in.
 */
module Namespace {
  import opened FsTypes

  /**
   * `order` lists every key of `keys` exactly once. The entry map is a hash
   * map whose iteration order is unspecified, so readdir is given such an
   * enumeration; both scans of one readdir call use the same one.
   */
  predicate IsEnumeration(order: seq<Key>, keys: set<Key>) {
    && (forall k :: k in keys ==> k in order)
    && (forall i :: 0 <= i < |order| ==> order[i] in keys)
    && (forall i, j :: 0 <= i < j < |order| ==> order[i] != order[j])
  }

  /** No inode is the child of two entries. */
  predicate ChildrenUnique(entries: map<Key, Ino>) {
    forall k1, k2 :: k1 in entries && k2 in entries && entries[k1] == entries[k2] ==> k1 == k2
  }

  /** `name` is an entry of `dir` whose child has an attribute record. */
  predicate IsChild(s: FsState, dir: Ino, name: Name) {
    (dir, name) in s.entries && s.entries[(dir, name)] in s.inodes
  }

  /** No entry has `dir` as its parent. */
  predicate IsEmptyDir(s: FsState, dir: Ino) {
    forall k :: k in s.entries ==> k.0 != dir
  }

  /** One line of a directory listing before it is paged out: inode, kind, name. */
  datatype Listed = Listed(ino: Ino, kind: Kind, name: Name)

  const DOT: Name := [0x2E]
  const DOTDOT: Name := [0x2E, 0x2E]

  /** The line a child contributes: its record's inode number and kind, under its entry name. */
  function ChildLine(s: FsState, dir: Ino, name: Name): Listed
    requires IsChild(s, dir, name)
  {
    var a := s.inodes[s.entries[(dir, name)]];
    Listed(a.ino, a.kind, name)
  }

  /** The parent of the first entry from position `i` on whose child is `ino`. */
  function FindParent(entries: map<Key, Ino>, order: seq<Key>, ino: Ino, i: nat): (r: Option<Ino>)
    ensures r.None? <==> forall j :: i <= j < |order| && order[j] in entries ==> entries[order[j]] != ino
    ensures r.Some? ==>
      exists j :: i <= j < |order| && order[j] in entries && entries[order[j]] == ino && order[j].0 == r.value
        && (forall j' :: i <= j' < j && order[j'] in entries ==> entries[order[j']] != ino)
    decreases |order| - i
  {
    if i >= |order| then None
    else if order[i] in entries && entries[order[i]] == ino then Some(order[i].0)
    else FindParent(entries, order, ino, i + 1)
  }

  /** The inode ".." names: the root for the root, else the parent found by the scan, else the root. */
  function ParentOf(s: FsState, order: seq<Key>, ino: Ino): (p: Ino)
    ensures ino == ROOT ==> p == ROOT
    ensures ino != ROOT && (forall j :: 0 <= j < |order| && order[j] in s.entries ==> s.entries[order[j]] != ino) ==> p == ROOT
    ensures ino != ROOT && (exists j :: 0 <= j < |order| && order[j] in s.entries && s.entries[order[j]] == ino) ==>
      exists j :: 0 <= j < |order| && order[j] in s.entries && s.entries[order[j]] == ino && order[j].0 == p
        && (forall j' :: 0 <= j' < j && order[j'] in s.entries ==> s.entries[order[j']] != ino)
  {
    if ino == ROOT then ROOT
    else
      match FindParent(s.entries, order, ino, 0)
      case Some(p) => p
      case None => ROOT
  }

  /**
   * With every child named by at most one entry, ".." does not depend on the
   * iteration order: it is the parent of the one entry naming `ino`, and the
   * root when there is none.
   */
  lemma ParentOfIsEntryParent(s: FsState, order: seq<Key>, ino: Ino)
    requires IsEnumeration(order, s.entries.Keys)
    requires ChildrenUnique(s.entries)
    ensures ino != ROOT && (forall k :: k in s.entries ==> s.entries[k] != ino) ==> ParentOf(s, order, ino) == ROOT
    ensures forall k :: ino != ROOT && k in s.entries && s.entries[k] == ino ==> ParentOf(s, order, ino) == k.0
  {
    if ino != ROOT {
      var r := FindParent(s.entries, order, ino, 0);
      if r.Some? {
        var j :| 0 <= j < |order| && order[j] in s.entries && s.entries[order[j]] == ino && order[j].0 == r.value;
        assert order[j] in s.entries;
      } else {
        forall k | k in s.entries
          ensures s.entries[k] != ino
        {
          assert k in order;
          var j :| 0 <= j < |order| && order[j] == k;
        }
      }
    }
  }

  /**
   * The children of `dir` listed by the scan from position `i` on: one line
   * per entry of `dir` whose child has a record, in iteration order.
   */
  function ChildrenFrom(s: FsState, order: seq<Key>, dir: Ino, i: nat): (r: seq<Listed>)
    ensures i <= |order| ==> |r| <= |order| - i
    ensures i >= |order| ==> r == []
    ensures forall m :: 0 <= m < |r| ==> IsChild(s, dir, r[m].name) && r[m] == ChildLine(s, dir, r[m].name)
    decreases |order| - i
  {
    if i >= |order| then []
    else
      var k := order[i];
      var rest := ChildrenFrom(s, order, dir, i + 1);
      if k.0 == dir && k in s.entries && s.entries[k] in s.inodes then
        [ChildLine(s, dir, k.1)] + rest
      else rest
  }

  /** Every line of the scan from `i` comes from an entry of `dir` at position `i` or later. */
  lemma {:induction false} ChildFromPosition(s: FsState, order: seq<Key>, dir: Ino, i: nat, m: nat)
    requires m < |ChildrenFrom(s, order, dir, i)|
    ensures exists j :: i <= j < |order| && order[j] == (dir, ChildrenFrom(s, order, dir, i)[m].name)
    decreases |order| - i
  {
    var k := order[i];
    var rest := ChildrenFrom(s, order, dir, i + 1);
    if k.0 == dir && k in s.entries && s.entries[k] in s.inodes {
      if m == 0 {
        assert order[i] == (dir, ChildrenFrom(s, order, dir, i)[0].name);
      } else {
        ChildFromPosition(s, order, dir, i + 1, m - 1);
      }
    } else {
      ChildFromPosition(s, order, dir, i + 1, m);
    }
  }

  /** Every entry of `dir` at position `i` or later whose child has a record is listed by the scan from `i`. */
  lemma {:induction false} ChildListedFrom(s: FsState, order: seq<Key>, dir: Ino, i: nat, j: nat)
    requires i <= j < |order| && order[j].0 == dir && IsChild(s, dir, order[j].1)
    ensures exists m :: 0 <= m < |ChildrenFrom(s, order, dir, i)| && ChildrenFrom(s, order, dir, i)[m].name == order[j].1
    decreases |order| - i
  {
    var c := ChildrenFrom(s, order, dir, i);
    var k := order[i];
    var rest := ChildrenFrom(s, order, dir, i + 1);
    var here := k.0 == dir && k in s.entries && s.entries[k] in s.inodes;
    if j == i {
      assert here && c[0].name == order[j].1;
    } else {
      ChildListedFrom(s, order, dir, i + 1, j);
      var m :| 0 <= m < |rest| && rest[m].name == order[j].1;
      if here {
        assert c[m + 1] == rest[m];
      } else {
        assert c[m] == rest[m];
      }
    }
  }

  /**
   * The whole listing readdir pages through: "." for the directory itself,
   * ".." for its parent, then its children: each entry of the directory whose
   * child has a record, once, with that record's inode number and kind.
   */
  function Listing(s: FsState, order: seq<Key>, ino: Ino): (l: seq<Listed>)
    requires IsEnumeration(order, s.entries.Keys)
    ensures |l| >= 2
    ensures l[0] == Listed(ino, Directory, DOT)
    ensures l[1] == Listed(ParentOf(s, order, ino), Directory, DOTDOT)
    ensures forall n :: (exists m :: 2 <= m < |l| && l[m].name == n) <==> IsChild(s, ino, n)
    ensures forall m1, m2 :: 2 <= m1 < m2 < |l| ==> l[m1].name != l[m2].name
    ensures forall m :: 2 <= m < |l| ==> IsChild(s, ino, l[m].name) && l[m] == ChildLine(s, ino, l[m].name)
  {
    var c := ChildrenFrom(s, order, ino, 0);
    ChildrenExact(s, order, ino);
    var l := [Listed(ino, Directory, DOT), Listed(ParentOf(s, order, ino), Directory, DOTDOT)] + c;
    assert forall m :: 2 <= m < |l| ==> l[m] == c[m - 2];
    forall n | IsChild(s, ino, n)
      ensures exists m :: 2 <= m < |l| && l[m].name == n
    {
      var m :| 0 <= m < |c| && c[m].name == n;
      assert l[m + 2].name == n;
    }
    l
  }

  /**
   * The children part of a listing is exact: a name appears iff it is an entry
   * of `dir` whose child has a record, it appears once, and it carries that
   * child's inode number and kind.
   */
  lemma ChildrenExact(s: FsState, order: seq<Key>, dir: Ino)
    requires IsEnumeration(order, s.entries.Keys)
    ensures var c := ChildrenFrom(s, order, dir, 0);
      forall n :: (exists m :: 0 <= m < |c| && c[m].name == n) <==> IsChild(s, dir, n)
    ensures var c := ChildrenFrom(s, order, dir, 0);
      forall m1, m2 :: 0 <= m1 < m2 < |c| ==> c[m1].name != c[m2].name
    ensures var c := ChildrenFrom(s, order, dir, 0);
      forall m :: 0 <= m < |c| ==> c[m].ino == s.inodes[s.entries[(dir, c[m].name)]].ino
  {
    var c := ChildrenFrom(s, order, dir, 0);
    forall n | IsChild(s, dir, n)
      ensures exists m :: 0 <= m < |c| && c[m].name == n
    {
      assert (dir, n) in order;
      var j :| 0 <= j < |order| && order[j] == (dir, n);
      ChildListedFrom(s, order, dir, 0, j);
    }
    ChildrenDistinct(s, order, dir, 0);
  }

  /** Distinct positions of the scan give distinct names. */
  lemma {:induction false} ChildrenDistinct(s: FsState, order: seq<Key>, dir: Ino, i: nat)
    requires forall a, b :: 0 <= a < b < |order| ==> order[a] != order[b]
    ensures forall m1, m2 :: 0 <= m1 < m2 < |ChildrenFrom(s, order, dir, i)| ==>
      ChildrenFrom(s, order, dir, i)[m1].name != ChildrenFrom(s, order, dir, i)[m2].name
    decreases |order| - i
  {
    if i < |order| {
      ChildrenDistinct(s, order, dir, i + 1);
      var k := order[i];
      var rest := ChildrenFrom(s, order, dir, i + 1);
      var c := ChildrenFrom(s, order, dir, i);
      if k.0 == dir && k in s.entries && s.entries[k] in s.inodes {
        assert c == [ChildLine(s, dir, k.1)] + rest;
        forall m | 0 <= m < |rest|
          ensures rest[m].name != k.1
        {
          ChildFromPosition(s, order, dir, i + 1, m);
          var j :| i + 1 <= j < |order| && order[j] == (dir, rest[m].name);
          assert order[j] != order[i];
        }
        forall m1, m2 | 0 <= m1 < m2 < |c|
          ensures c[m1].name != c[m2].name
        {
          if m1 == 0 {
            assert c[0].name == k.1;
            assert c[m2] == rest[m2 - 1];
            assert rest[m2 - 1].name != k.1;
          } else {
            assert c[m1] == rest[m1 - 1] && c[m2] == rest[m2 - 1];
            assert 0 <= m1 - 1 < m2 - 1 < |rest|;
          }
        }
      }
    }
  }
}

=== FILE: properties.dfy ===
/**
 * Properties of the engine's callbacks: the state invariant is kept by every
 * transition, ids are fresh and never reused, names are unique per parent,
 * written bytes read back, listings are complete, and the places where the
 * callbacks as written part from a tidy filesystem.
 */
module Properties {
  import opened FsTypes
  import opened Buffer
  import opened Namespace
  import opened DirList
  import opened Engine

  // ---------------------------------------------------------------------
  // Map facts

  lemma ValuesAfterInsert(m: map<Key, Ino>, k: Key, v: Ino)
    requires k !in m
    ensures m[k := v].Values == m.Values + {v}
  {
    var m' := m[k := v];
    forall x | x in m.Values
      ensures x in m'.Values
    {
      var k' :| k' in m && m[k'] == x;
      assert m'[k'] == x;
    }
    assert m'[k] == v;
  }

  lemma ValuesAfterRemove(m: map<Key, Ino>, k: Key)
    requires k in m && ChildrenUnique(m)
    ensures (m - {k}).Values == m.Values - {m[k]}
  {
    var m' := m - {k};
    forall x | x in m.Values && x != m[k]
      ensures x in m'.Values
    {
      var k' :| k' in m && m[k'] == x;
      assert k' in m' && m'[k'] == x;
    }
  }

  // ---------------------------------------------------------------------
  // The invariant is kept by every mutating callback

  lemma CreatePreservesWf(s: FsState, env: Env, parent: Ino, name: Name, mode: U32)
    requires Wf(s)
    ensures Wf(Create(s, env, parent, name, mode).state)
  {
    var r := Create(s, env, parent, name, mode);
    if r.reply.Ok? {
      var id := s.counter;
      assert id !in s.inodes;
      ValuesAfterInsert(s.entries, (parent, name), id);
    }
  }

  lemma MkDirPreservesWf(s: FsState, env: Env, parent: Ino, name: Name, mode: U32)
    requires Wf(s)
    ensures Wf(MkDir(s, env, parent, name, mode).state)
  {
    var r := MkDir(s, env, parent, name, mode);
    if r.reply.Ok? {
      var id := s.counter;
      assert id !in s.inodes && id !in s.fileData;
      ValuesAfterInsert(s.entries, (parent, name), id);
    }
  }

  lemma UnlinkPreservesWf(s: FsState, parent: Ino, name: Name)
    requires Wf(s)
    ensures Wf(Unlink(s, parent, name).state)
  {
    var r := Unlink(s, parent, name);
    if r.reply.Ok? {
      ValuesAfterRemove(s.entries, (parent, name));
    }
  }

  lemma RmDirPreservesWf(s: FsState, parent: Ino, name: Name)
    requires Wf(s)
    ensures Wf(RmDir(s, parent, name).state)
  {
    var r := RmDir(s, parent, name);
    if r.reply.Ok? {
      ValuesAfterRemove(s.entries, (parent, name));
    }
  }

  lemma SetAttrPreservesWf(s: FsState, env: Env, ino: Ino, args: SetAttrArgs)
    requires Wf(s)
    ensures Wf(SetAttr(s, env, ino, args).state)
  {
  }

  lemma WritePreservesWf(s: FsState, env: Env, ino: Ino, offset: nat, data: seq<bv8>)
    requires Wf(s)
    ensures Wf(Write(s, env, ino, offset, data).state)
  {
  }

  // ---------------------------------------------------------------------
  // Fresh ids and unique names

  /**
   * The id create hands out is the counter: not the root, above every live
   * id, and used by no record, entry or buffer. Exactly one record is added.
   */
  lemma CreateAllocatesFresh(s: FsState, env: Env, parent: Ino, name: Name, mode: U32)
    requires Wf(s)
    requires Create(s, env, parent, name, mode).reply.Ok?
    ensures var id := Create(s, env, parent, name, mode).reply.value.ino;
      && id != ROOT
      && (forall i :: i in s.inodes ==> i < id)
      && id !in s.entries.Values && id !in s.fileData
      && |Create(s, env, parent, name, mode).state.inodes| == |s.inodes| + 1
  {
    var id := s.counter;
    assert id !in s.inodes.Keys;
  }

  /** The same for mkdir. */
  lemma MkDirAllocatesFresh(s: FsState, env: Env, parent: Ino, name: Name, mode: U32)
    requires Wf(s)
    requires MkDir(s, env, parent, name, mode).reply.Ok?
    ensures var id := MkDir(s, env, parent, name, mode).reply.value.ino;
      && id != ROOT
      && (forall i :: i in s.inodes ==> i < id)
      && id !in s.entries.Values && id !in s.fileData
      && |MkDir(s, env, parent, name, mode).state.inodes| == |s.inodes| + 1
  {
    var id := s.counter;
    assert id !in s.inodes.Keys;
  }

  /** Once create has made `name` in `parent`, a second create or mkdir of it fails with EEXIST and changes nothing. */
  lemma NameTakenAfterCreate(s: FsState, env: Env, env': Env, parent: Ino, name: Name, mode: U32, mode': U32)
    requires Create(s, env, parent, name, mode).reply.Ok?
    ensures var s1 := Create(s, env, parent, name, mode).state;
      && Create(s1, env', parent, name, mode') == Step(s1, Err(EEXIST))
      && MkDir(s1, env', parent, name, mode') == Step(s1, Err(EEXIST))
  {
  }

  /** The same once mkdir has made it. */
  lemma NameTakenAfterMkDir(s: FsState, env: Env, env': Env, parent: Ino, name: Name, mode: U32, mode': U32)
    requires MkDir(s, env, parent, name, mode).reply.Ok?
    ensures var s1 := MkDir(s, env, parent, name, mode).state;
      && Create(s1, env', parent, name, mode') == Step(s1, Err(EEXIST))
      && MkDir(s1, env', parent, name, mode') == Step(s1, Err(EEXIST))
  {
  }

  /** After unlink removes `name` from `parent`, create may make it again. */
  lemma UnlinkFreesName(s: FsState, env: Env, parent: Ino, name: Name, mode: U32)
    requires Unlink(s, parent, name).reply.Ok?
    ensures Create(Unlink(s, parent, name).state, env, parent, name, mode).reply.Ok?
  {
  }

  /** What create replies is what lookup and getattr find afterwards. */
  lemma CreateThenLookup(s: FsState, env: Env, parent: Ino, name: Name, mode: U32)
    requires Wf(s)
    requires Create(s, env, parent, name, mode).reply.Ok?
    ensures var r := Create(s, env, parent, name, mode);
      && Lookup(r.state, parent, name).reply == r.reply
      && GetAttr(r.state, r.reply.value.ino).reply == r.reply
  {
  }

  // ---------------------------------------------------------------------
  // Content

  /** Reading back, at the same offset and length, what write stored returns the written bytes. */
  lemma WriteThenRead(s: FsState, env: Env, ino: Ino, offset: nat, data: seq<bv8>)
    requires ino in s.fileData
    requires |data| < U32_MODULUS
    ensures Read(Write(s, env, ino, offset, data).state, ino, offset, |data|).reply == Ok(data)
  {
    ReadAfterWrite(s.fileData[ino], offset, data);
  }

  /** The gap a write past the end opens reads back as zeros. */
  lemma SparseWriteReadsZero(s: FsState, env: Env, ino: Ino, offset: nat, data: seq<bv8>)
    requires ino in s.fileData
    requires |s.fileData[ino]| < offset && offset - |s.fileData[ino]| < U32_MODULUS
    ensures var len := |s.fileData[ino]|;
      Read(Write(s, env, ino, offset, data).state, ino, len, offset - len).reply == Ok(Zeros(offset - len))
  {
    GapReadsZero(s.fileData[ino], offset, data);
  }

  /** After a write, the record of a live file reports the buffer's length and write's block count. */
  lemma WriteKeepsSizeInSync(s: FsState, env: Env, ino: Ino, offset: nat, data: seq<bv8>)
    requires ino in s.fileData && ino in s.inodes
    ensures var s1 := Write(s, env, ino, offset, data).state;
      && GetAttr(s1, ino).reply.Ok?
      && GetAttr(s1, ino).reply.value.size == |s1.fileData[ino]| == Max(|s.fileData[ino]|, offset + |data|)
      && GetAttr(s1, ino).reply.value.blocks == WriteBlocks(|s1.fileData[ino]|)
  {
  }

  // ---------------------------------------------------------------------
  // Removal

  /**
   * unlink keeps the content of the object it removes: its record is gone,
   * yet read still returns its old bytes and write still succeeds on it.
   */
  lemma UnlinkKeepsContent(s: FsState, env: Env, parent: Ino, name: Name, offset: nat, size: U32, data: seq<bv8>)
    requires Wf(s)
    requires Unlink(s, parent, name).reply.Ok?
    requires s.entries[(parent, name)] in s.fileData
    ensures var child := s.entries[(parent, name)];
      var s1 := Unlink(s, parent, name).state;
      && GetAttr(s1, child).reply == Err(ENOENT)
      && Read(s1, child, offset, size).reply == Read(s, child, offset, size).reply
      && Read(s1, child, offset, size).reply.Ok?
      && Write(s1, env, child, offset, data).reply.Ok?
  {
  }

  /**
   * unlink of a directory that still has entries leaves those entries in
   * place under a parent that no longer has a record; rmdir refuses it.
   */
  lemma UnlinkOrphansEntries(s: FsState, parent: Ino, name: Name, k: Key)
    requires Wf(s)
    requires Unlink(s, parent, name).reply.Ok?
    requires k in s.entries && k != (parent, name) && k.0 == s.entries[(parent, name)]
    ensures var s1 := Unlink(s, parent, name).state;
      && k in s1.entries && k.0 !in s1.inodes
      && RmDir(s, parent, name).reply.Err?
  {
  }

  // ---------------------------------------------------------------------
  // setattr as written

  /** setattr never touches a buffer, so a new size leaves the buffer's length behind. */
  lemma SetAttrSizeLeavesBuffer(s: FsState, env: Env, ino: Ino, args: SetAttrArgs)
    requires ino in s.inodes && ino in s.fileData
    requires args.size.Some? && args.size.value != |s.fileData[ino]|
    ensures var s1 := SetAttr(s, env, ino, args).state;
      && s1.fileData == s.fileData
      && s1.inodes[ino].size != |s1.fileData[ino]|
  {
  }

  /**
   * For any nonzero size, the block count setattr stores (size over the
   * 4096-byte block size, rounded up) is smaller than the one write stores
   * for the same size.
   */
  lemma SetAttrBlocksBelowWriteBlocks(s: FsState, env: Env, ino: Ino, args: SetAttrArgs)
    requires Wf(s) && ino in s.inodes
    requires args.size.Some? && args.size.value > 0
    ensures SetAttr(s, env, ino, args).reply.value.blocks < WriteBlocks(args.size.value)
  {
    var v := args.size.value;
    var q := SetAttr(s, env, ino, args).reply.value.blocks;
    var w := DivCeil(v, SECTOR);
    assert v <= q * 4096 && (q == 0 || (q - 1) * 4096 < v);
    assert v <= w * SECTOR;
    if q >= 2 {
      assert (q - 1) * 4096 < w * 512;
      assert (q - 1) * 8 < w;
    }
  }

  /** Applying the same setattr twice, with no "now" time, is the same as applying it once. */
  lemma SetAttrIdempotent(a: Attr, args: SetAttrArgs, now: Time, later: Time)
    requires args.atime != Some(Now) && args.mtime != Some(Now)
    ensures ApplySetAttr(ApplySetAttr(a, args, now), args, later) == ApplySetAttr(a, args, now)
  {
  }

  /** A setattr with no field given leaves the record as it is. */
  lemma SetAttrNothingGiven(a: Attr, now: Time)
    ensures ApplySetAttr(a, SetAttrArgs(None, None, None, None, None, None, None, None, None), now) == a
  {
  }

  // ---------------------------------------------------------------------
  // Listings

  /** Every item of a directory's listing fits in a buffer that takes ".." and every child name. */
  lemma ListingFits(s: FsState, ino: Ino, cap: nat, order: seq<Key>)
    requires IsEnumeration(order, s.entries.Keys)
    requires DirentSize(DOTDOT) <= cap
    requires forall k :: k in s.entries && k.0 == ino ==> DirentSize(k.1) <= cap
    ensures var l := Listing(s, order, ino);
      forall j :: 0 <= j < |l| ==> DirentSize(l[j].name) <= cap
  {
    var l := Listing(s, order, ino);
    forall j | 2 <= j < |l|
      ensures DirentSize(l[j].name) <= cap
    {
      assert (ino, l[j].name) in s.entries;
    }
  }

  /** Paging from 0 through a listing whose every item fits yields each item in order, with cookie `i + 1`. */
  lemma PagesFollowListing(s: FsState, ino: Ino, cap: nat, order: seq<Key>)
    requires IsEnumeration(order, s.entries.Keys)
    requires DirentSize(DOTDOT) <= cap
    requires forall k :: k in s.entries && k.0 == ino ==> DirentSize(k.1) <= cap
    ensures var l := Listing(s, order, ino);
      var p := Paginate(l, 0, cap);
      && |p| == |l|
      && (forall m :: 0 <= m < |p| ==> p[m] == DirItem(l[m].ino, m + 1, l[m].kind, l[m].name))
  {
    var l := Listing(s, order, ino);
    ListingFits(s, ino, cap, order);
    PaginateCovers(l, 0, cap);
  }

  /**
   * Paging through a directory from offset 0, with a reply buffer that takes
   * any single item, yields "." with the directory's id, ".." with its
   * parent's, and then every child exactly once with its own id; each page
   * is what readdir replies for that offset.
   */
  lemma ReadDirListsEverything(s: FsState, ino: Ino, cap: nat, order: seq<Key>)
    requires Wf(s)
    requires IsEnumeration(order, s.entries.Keys)
    requires ino in s.inodes && s.inodes[ino].kind == Directory
    requires DirentSize(DOTDOT) <= cap
    requires forall k :: k in s.entries && k.0 == ino ==> DirentSize(k.1) <= cap
    ensures forall offset: nat :: ReadDir(s, ino, offset, cap, order).reply == Ok(Emit(Listing(s, order, ino), offset, cap))
    ensures var p := Paginate(Listing(s, order, ino), 0, cap);
      && |p| >= 2
      && p[0] == DirItem(ino, 1, Directory, DOT)
      && p[1] == DirItem(ParentOf(s, order, ino), 2, Directory, DOTDOT)
      && (forall n :: (exists m :: 2 <= m < |p| && p[m].name == n) <==> IsChild(s, ino, n))
      && (forall m1, m2 :: 2 <= m1 < m2 < |p| ==> p[m1].name != p[m2].name)
      && (forall m :: 2 <= m < |p| ==> IsChild(s, ino, p[m].name) && p[m].ino == s.entries[(ino, p[m].name)])
  {
    var l := Listing(s, order, ino);
    PagesFollowListing(s, ino, cap, order);
    var p := Paginate(l, 0, cap);
    forall n | IsChild(s, ino, n)
      ensures exists m :: 2 <= m < |p| && p[m].name == n
    {
      var m :| 2 <= m < |l| && l[m].name == n;
      assert p[m].name == n;
    }
    forall m1, m2 | 2 <= m1 < m2 < |p|
      ensures p[m1].name != p[m2].name
    {
      assert p[m1].name == l[m1].name && p[m2].name == l[m2].name;
    }
    forall m | 2 <= m < |p|
      ensures IsChild(s, ino, p[m].name) && p[m].ino == s.entries[(ino, p[m].name)]
    {
      assert p[m].name == l[m].name && p[m].ino == l[m].ino;
      assert l[m] == ChildLine(s, ino, l[m].name);
    }
  }

  /** In a well-formed state the ".." of a listing is the parent of the entry naming the directory, else the root. */
  lemma DotDotIsParent(s: FsState, order: seq<Key>, parent: Ino, name: Name)
    requires Wf(s)
    requires IsEnumeration(order, s.entries.Keys)
    requires (parent, name) in s.entries
    ensures Listing(s, order, s.entries[(parent, name)])[1].ino == parent
  {
    ParentOfIsEntryParent(s, order, s.entries[(parent, name)]);
  }
}

=== FILE: utf8.dfy ===
/**
 * Well-formed UTF-8, the test a name passes when the callbacks convert it to
 * text: a name that is not well-formed UTF-8 is refused with EINVAL.
 * The byte ranges are those of Table 3-7 of the Unicode Standard, so
 * overlong forms, surrogates and values past U+10FFFF are all rejected.
 */
module Utf8 {

  predicate IsContinuation(b: bv8) {
    0x80 <= b <= 0xBF
  }

  /**
   * Length of the well-formed sequence at the head of `s`, or 0 when `s` is
   * empty or does not start with one.
   */
  function LeadLength(s: seq<bv8>): (n: nat)
    ensures n <= |s| && n <= 4
    ensures n == 1 <==> |s| > 0 && s[0] <= 0x7F
  {
    if |s| == 0 then 0
    else
      var b := s[0];
      if b <= 0x7F then 1
      else if 0xC2 <= b <= 0xDF then
        if |s| >= 2 && IsContinuation(s[1]) then 2 else 0
      else if b == 0xE0 then
        if |s| >= 3 && 0xA0 <= s[1] <= 0xBF && IsContinuation(s[2]) then 3 else 0
      else if (0xE1 <= b <= 0xEC) || (0xEE <= b <= 0xEF) then
        if |s| >= 3 && IsContinuation(s[1]) && IsContinuation(s[2]) then 3 else 0
      else if b == 0xED then
        if |s| >= 3 && 0x80 <= s[1] <= 0x9F && IsContinuation(s[2]) then 3 else 0
      else if b == 0xF0 then
        if |s| >= 4 && 0x90 <= s[1] <= 0xBF && IsContinuation(s[2]) && IsContinuation(s[3]) then 4 else 0
      else if 0xF1 <= b <= 0xF3 then
        if |s| >= 4 && IsContinuation(s[1]) && IsContinuation(s[2]) && IsContinuation(s[3]) then 4 else 0
      else if b == 0xF4 then
        if |s| >= 4 && 0x80 <= s[1] <= 0x8F && IsContinuation(s[2]) && IsContinuation(s[3]) then 4 else 0
      else 0
  }

  /**
   * `s` is a concatenation of well-formed UTF-8 sequences; in particular it
   * starts with ASCII or with a lead byte from 0xC2 to 0xF4, never with a
   * continuation byte.
   */
  predicate IsValid(s: seq<bv8>): (ok: bool)
    ensures ok && |s| > 0 ==> s[0] <= 0x7F || 0xC2 <= s[0] <= 0xF4
    decreases |s|
  {
    |s| == 0 || (var n := LeadLength(s); n > 0 && IsValid(s[n..]))
  }

  /** Every plain-ASCII name is accepted. */
  lemma {:induction false} AsciiIsValid(s: seq<bv8>)
    requires forall i :: 0 <= i < |s| ==> s[i] <= 0x7F
    ensures IsValid(s)
    decreases |s|
  {
    if |s| > 0 {
      assert LeadLength(s) == 1;
      AsciiIsValid(s[1..]);
    }
  }

  /** A byte that never occurs in well-formed UTF-8 makes the whole name invalid. */
  lemma {:induction false} StrayByteIsInvalid(s: seq<bv8>, i: nat)
    requires i < |s| && (s[i] == 0xC0 || s[i] == 0xC1 || s[i] >= 0xF5)
    ensures !IsValid(s)
    decreases |s|
  {
    if IsValid(s) {
      var n := LeadLength(s);
      if i < n {
        assert false;
      } else {
        assert s[n..][i - n] == s[i];
        StrayByteIsInvalid(s[n..], i - n);
      }
    }
  }
}
